=== FILE: README.md ===
# Feishu adapter for MaiBot: a Dafny model of its core

The adapter connects the Feishu (Lark) chat platform to the MaiBot message
bus. This project models the three pieces that decide what the adapter
does. Everything else is treated as an input.

- **Inbound normalisation** (`message_converter.dfy`, module
  `MessageConverter`). `process_feishu_message` turns a raw
  `im.message.receive_v1` event into a maim_message `MessageBase`. The
  steps are:
  - drop events sent by an app;
  - build `UserInfo`, and `GroupInfo` for a group chat;
  - derive the timestamp;
  - parse the content by message type (text, image with download, other);
  - rewrite mention keys to `@<name:open_id>` and record whether the bot
    was mentioned;
  - wrap the content in a single-element `seglist`;
  - echo the chat and message ids in `additional_config.feishu`.
- **Outbound dispatch** (`maibot_client.dfy`, module `MaiBotClient`).
  `handle_maibot_response` routes a dict from the bus. A dict with
  `message_info` and `message_segment` is a `MessageBase` reply: it is
  flattened by `parse_seg_to_list` and sent segment by segment. Any other
  dict is a legacy `send_msg`/`send_private_msg`/`send_group_msg`
  action. Both paths produce an ordered trace of Feishu jobs:
  - a text send;
  - a threaded text reply;
  - an upload-then-send image job.

  A text or image whose data is not a string raises, and that ends the
  segment loop. The model represents this as an `Abort` step.
- **Feishu REST client** (`feishu_client.dfy`, module `FeishuApi`).
  - The tenant access token cache is the pure function `FetchToken` plus
    the class `FeishuClient`, whose two fields hold the cached token and
    its expiry.
  - The class also has `send_message`, `reply_message`, `get_user_info`,
    `upload_image` and `send_image_message`. Each one issues no request
    when there is no token, and reports success only when the body's
    `code` is 0.
  - A ghost field `requests` logs every HTTP request in order.

Supporting modules:
- `pystr.dfy` (`PyStr`) gives the Python `str` operations the code relies
  on: `strip()`/`isspace()`, `startswith`, `in` and `replace`.
- `maim_message.dfy` (`MaimMessage`) holds the maim_message records.
- `wrappers.dfy` defines `Option`.

Inputs that the model does not compute:
- **HTTP replies:** each client call takes an `Env`: the clock reading
  `now`, the token-exchange reply (or `ExchangeRaised` when the request
  raises) and the API reply.
- **Image download:** the function `download(image_key, message_id)`,
  which answers "" on failure.
- **Base64:** the function `decode`, which answers None where
  `base64.b64decode` raises.
- **JSON:** the `Content` of a message is already decoded, as "not JSON",
  "a JSON object with these `text`/`image_key` fields" or "some other JSON
  value".

## Model

| member | source | states |
|---|---|---|
| FeishuApi.FetchToken | src/feishu_client.py:20-51 | An exchange happens iff the cached token is empty or `now` is not before the expiry. A cache hit returns the cached, non-empty token and changes nothing. A code-0 exchange with a numeric or absent `expire` stores the new token with expiry `now + expire (default 7200) - 300` and returns it. A code-0 exchange whose `expire` is null or not a number stores the token, keeps the old expiry and returns "" (the addition raises after the store). Any other exchange returns "" and leaves the cache as it was. The cache changes only on a code-0 exchange, the expiry only on a renewing one, and a non-empty returned token is always the cached one. |
| FeishuApi.CacheServesUntilExpiry | src/feishu_client.py:22-24 | A non-empty cached token serves every call made before its expiry: no exchange, the cache unchanged, the same token each time. |
| FeishuApi.OneExchangePerWindow | src/feishu_client.py:22-45 | Whenever the cache is not fresh (a new client, or any call after the expiry), one renewing exchange is the only exchange for every later call made before `now + expire - 300`. All of those calls return the new token. |
| FeishuApi.UploadOutcome | src/feishu_client.py:177-200 | An image key comes back only with a token and a code-0 answer. In that case it is the answer's `data.image_key`. |
| FeishuApi.FeishuClient.constructor | src/feishu_client.py:13-18 | The client starts with the given app credentials, no token, expiry 0 and no requests. |
| FeishuApi.FeishuClient.GetTenantAccessToken | src/feishu_client.py:20-51 | The new cache and the returned token are those of `FetchToken` on the old cache. One exchange request is logged exactly when `FetchToken` exchanges. |
| FeishuApi.FeishuClient.SendMessage | src/feishu_client.py:53-98 | The request is posted only when a token was obtained. The result is true iff a token was obtained, the status is not a 4xx/5xx and the body's code is 0. The cache follows `FetchToken`. |
| FeishuApi.FeishuClient.ReplyMessage | src/feishu_client.py:100-141 | Same guard and success rule as `SendMessage`, posted as a reply to the given message id. |
| FeishuApi.FeishuClient.GetUserInfo | src/feishu_client.py:143-173 | Returns None without a token. Otherwise returns `data.user` exactly when the code is 0; an HTTP error status alone does not fail it. |
| FeishuApi.FeishuClient.UploadImage | src/feishu_client.py:175-203 | Posts the image only with a token. Returns `UploadOutcome`, and the cache follows `FetchToken`. |
| FeishuApi.FeishuClient.SendImageMessage | src/feishu_client.py:206-209 | Behaves as `send_message` of type "image" whose content names the image key. |
| MessageConverter.ParseContent | src/message_converter.py:123-153 | At most one segment. An image segment appears iff the type is "image", the content has a truthy `image_key`, the message id is non-empty and the download is non-empty; it then holds the download with text "[图片]". A failed download gives "[图片下载失败]". Missing key or id gives "[图片]". Text content gives `text` ("" when absent). Non-JSON content, or non-object JSON for a text or image message, gives the raw content. Any other type gives "[type]". |
| MessageConverter.LastBotMentionIndex | src/message_converter.py:160-176 | The result is -1 or the index of a bot mention (an id object and a non-empty tenant key). No bot mention comes after it, so `bot_user_id` is the open id of the last one. |
| MessageConverter.RewriteAllNoOp | src/message_converter.py:178-181 | Mentions without a key, or without a truthy open id, leave the text unchanged. |
| MessageConverter.RewriteAllNoKeys | src/message_converter.py:160-181 | Text in which no rewriting mention's key occurs is left unchanged by the whole loop. |
| MessageConverter.RewriteAllIdempotent | src/message_converter.py:160-181 | Rewriting already-rewritten text again changes nothing, provided no rewriting key occurs in the rewritten text. |
| MessageConverter.RewriteTwiceRewritesAgain | src/message_converter.py:178-181 | Without that proviso idempotence fails: the text "@a" with a mention whose key and name are "@a" and open id "u" becomes "@<@a:u>", and a second pass gives "@<@<@a:u>:u>". |
| MessageConverter.RewriteAllAppend | src/message_converter.py:160-183 | Rewriting mentions `a + b` equals rewriting `a`, then rewriting the result with `b`. Replacements apply in list order. |
| MessageConverter.RewriteMentions | src/message_converter.py:155-183 | The loop's text equals every mention's key replaced in list order. `bot_mentioned` is true iff some mention is a bot mention. `bot_user_id` is the last bot mention's open id, or None. |
| MessageConverter.ProcessFeishuMessage | src/message_converter.py:79-223 | Nothing is forwarded iff `sender_type` is "app". Otherwise: user id is the open id if truthy, else `user_id` (default ""); nickname is `name` if truthy, else `default_name` (default "飞书用户"), and the card name equals it. Group info ("飞书群组") is present iff `chat_type` is "group". Time is `create_time / 1000`, or the clock when that does not parse. The message id and `feishu` echo are copied. Mentions are rewritten only when there are mentions and the text is non-empty. `raw_message` is the final text. The segment is a `seglist` of exactly one element: the image, or else the text. |
| PyStr.ReplaceAllAbsent | src/message_converter.py:181 | `str.replace` leaves a string without the key unchanged. |
| PyStr.ReplaceAllFirst | src/message_converter.py:181 | `str.replace` replaces the leftmost occurrence, copies the text before it and continues after it, so occurrences never overlap. |
| PyStr.StripLeadingMarker | src/maibot_client.py:200-201 | For data that starts with "base64://" and contains no further marker, `replace` leaves exactly the rest. |
| MaiBotClient.ParseSegToList | src/maibot_client.py:220-235 | Every returned entry is a text, image or emoji segment. |
| MaiBotClient.ParseItems | src/maibot_client.py:224-226 | Flattening the items of a seglist returns only text, image and emoji segments. |
| MaiBotClient.ParseSegToListKeepsLeaves | src/maibot_client.py:220-235 | Flattening returns exactly the text, image and emoji leaves of the segment tree, in left-to-right order and with their data. It never returns more entries than there are leaves. |
| MaiBotClient.ParseItemsKeepsLeaves | src/maibot_client.py:224-226 | The same, for the item list of a seglist. |
| MaiBotClient.ParseItemsAppend | src/maibot_client.py:224-226 | Flattening a seglist of `a + b` gives the flattening of `a` followed by that of `b`. |
| MaiBotClient.ReplyTarget | src/maibot_client.py:149-165 | The target is the group (`chat_id`) when group info is present, else the user (`open_id`). There is no target iff neither is present. |
| MaiBotClient.ReplySegStep | src/maibot_client.py:181-213 | A text or image segment whose data is not a string aborts the loop. A text issues one call iff it is not blank, and that call carries the segment's text: a reply on the original id when there is one, else a send to the target. An image issues one upload-then-send job iff its payload (with "base64://" removed) decodes, and the job carries the decoded bytes. Other types issue nothing. |
| MaiBotClient.ReplyCalls | src/maibot_client.py:181-213 | There are at most as many calls as segments. Each call is a non-blank reply on the original id (when it is set), a non-blank send to the target (when it is not), or an image job for the target. |
| MaiBotClient.ReplyCallsCarryPayloads | src/maibot_client.py:181-211 | When no text or image segment holds a non-string, the texts of the calls are exactly the non-blank texts of the segments, and the images of the jobs are exactly the decoded image payloads, each in segment order. |
| MaiBotClient.ReplyCallsAppend | src/maibot_client.py:181-213 | When no segment of `a` aborts, the calls for `a + b` are those of `a` followed by those of `b`. |
| MaiBotClient.SendReplySegments | src/maibot_client.py:181-213 | The loop issues exactly `ReplyCalls`, in segment order, and stops at the first aborting segment. |
| MaiBotClient.HandleMessageBaseReply | src/maibot_client.py:136-218 | The handler issues the reply loop's calls over the flattened segment, replying on `additional_config.feishu.message_id` when it is set. It issues nothing when `from_dict` raises, when there is no target, or when `additional_config.feishu` is present but not a dict (the lookup raises before the loop). |
| MaiBotClient.EchoedReplyThreads | src/maibot_client.py:170-197 | A reply that echoes a `feishu.message_id` sends no plain text. Every text goes as a reply to that id. |
| MaiBotClient.TextThenImage | src/maibot_client.py:181-211 | A non-blank text followed by a decodable image gives exactly two calls, in that order: one text call carrying that text (a reply on the original id when there is one, else a send to the target), then one image job carrying the decoded bytes. |
| MaiBotClient.ActionTarget | src/maibot_client.py:53-69 | The target is `group_id` as `chat_id` if present, else `user_id` as `open_id`, else `target_id`: `chat_id` iff it starts with "oc_", `open_id` otherwise. There is no target iff all three are missing. |
| MaiBotClient.ActionSegments | src/maibot_client.py:72-75 | A message that is not a list becomes one text segment holding its string form. |
| MaiBotClient.LegacyImagePayload | src/maibot_client.py:99-106 | A "base64://" prefix is removed by `replace`. A file that does not contain "base64" yields nothing to decode. |
| MaiBotClient.LegacySegStep | src/maibot_client.py:82-129 | Non-dict segments are skipped. A text or image whose value is not a string aborts. A text is sent iff it is not blank, as a send of that text to the target. A file without "base64" is not uploaded; a base64 file whose payload decodes becomes one job carrying the decoded bytes. Other types, including emoji and face, send nothing. |
| MaiBotClient.LegacyCalls | src/maibot_client.py:82-129 | There are at most as many calls as segments. Each call is a non-blank text send or an image job for the target, never a reply. |
| MaiBotClient.LegacyCallsCarryPayloads | src/maibot_client.py:82-120 | When no text or image dict holds a non-string value, the texts of the calls are exactly the non-blank texts, and the images of the jobs are exactly the decoded base64 files, each in segment order. |
| MaiBotClient.LegacyCallsAppend | src/maibot_client.py:82-129 | When no segment of `a` aborts, the calls for `a + b` are those of `a` followed by those of `b`. |
| MaiBotClient.SendActionSegments | src/maibot_client.py:82-129 | The legacy loop issues exactly `LegacyCalls`, in segment order, and stops at the first aborting segment. |
| MaiBotClient.HandleMaiBotResponse | src/maibot_client.py:34-134 | A dict with `message_info` and `message_segment` takes the MessageBase path. Otherwise a status or retcode reply without an action, and any action that is not a send action, issue nothing. A send action issues the legacy calls for its target. |
| MaiBotClient.UploadAndSend | src/maibot_client.py:115-118 | The image key is `UploadOutcome` of the upload. The requests are extended by exactly: the upload's token exchange (if any) and the image post (when a token was obtained); then, iff the key is non-empty, the send's token exchange (if any) and the image message to the target naming that key (when a token was obtained). The client's cache is that of the send's token fetch when the key is non-empty, else that of the upload's. |

## Left out

- `main.py`, `src/event_client.py`, `src/webhook_handler.py`, `src/config.py` and `src/logger.py` are not part of this model. These cover:
  - the event-stream listener and webhook;
  - the startup and self-registration sequence;
  - configuration loading and logging.
- The bus transport (`Router`, `connect`, `send_message`, `disconnect`) is left out. `process_feishu_message` hands its `MessageBase` to the bus; here it returns it.
- Concurrency is left out. The executor jobs appear as an ordered trace of `Call`s, one per job, and `UploadAndSend` models a single job against the client. The token refresh in `_get_tenant_access_token` has no lock, so two callers racing past expiry can both exchange. The model is sequential and does not show that race.
- `download_feishu_image` is the `download` input. Its own token fetch and HTTP request are not modelled.
- HTTP, JSON and base64 are inputs (`Env`, `Content`, `decode`). The `X-Tt-Logid` logging, URLs, headers and timeouts are not modelled.
- Time is a `real` in the converter and an `int` in the token cache. Float rounding is not modelled.
- JSON `null` and a missing key are one case where only truthiness matters (tokens, ids, `params` fields). In particular:
  - `str(None)` renderings such as "None" are not produced;
  - `params` that is not a dict is not modelled;
  - an `additional_config` that is not a dict is not modelled; a `feishu` entry that is not a dict is (the reply is dropped).
- An `expire` that is a float, or a boolean, is not modelled; the expiry is an integer number of seconds.
- A text `content` field that is a JSON non-string (a number, a boolean or null) is not modelled. In the source the log call at `src/message_converter.py:225` slices that value and raises, so the event is dropped and nothing is forwarded.
- A mention whose `name` is absent renders as "None" in the source; here `name` is always a string.
- A `seglist` whose data is not a list cannot come out of `MessageBase.from_dict`; it contributes nothing here.
- A text `data` that is a `Seg` list rather than a string aborts the reply loop (the `strip` raises). This follows the code.
- `ReplaceAll` requires a non-empty key. Every caller passes one: a mention key that was just tested, or the literal "base64://". Python's empty-key `replace` is therefore not modelled.
- Where the code and the design intent differ, the model follows the code:
  - With an original message id, every text segment goes out as a reply, not only the first.
  - `bot_mentioned` is set by any mention that has an id object and a tenant key. It is not compared with the adapter's own identity.
  - Mentions are replaced one after another in list order, so a replacement that contains a later key is rewritten again.
  - Rewriting is idempotent on already-rewritten text only when no name or open id contains a mention key (`RewriteAllIdempotent`); `RewriteTwiceRewritesAgain` exhibits a text where a second pass changes it.
- MaiBotClient.ParseSegToList: its own contract only states which kinds of segments it keeps. The full characterisation (exactly the kept leaves, in order) is the lemma `ParseSegToListKeepsLeaves`.
- MaiBotClient.ParseItems: its own contract only states which kinds of segments it keeps. The full characterisation (exactly the kept leaves of the items, in order) is the lemma `ParseItemsKeepsLeaves`.

=== FILE: feishu_client.dfy ===
/**
 * The Feishu (Lark) REST client: a cached tenant access token that every
 * outbound call fetches first, and the send, reply, user-lookup and image
 * upload calls guarded by it. HTTP, JSON and the clock are abstracted: each
 * call receives the time and the replies the platform would give (an `Env`),
 * and the client records the requests it issues in a ghost log.
 */
module FeishuApi {
  import opened Wrappers

  type Bytes = seq<bv8>

  /** Lifetime assumed when the exchange reply carries no `expire` field. */
  const DefaultTokenTtl := 7200
  /** The token is treated as expired this many seconds early. */
  const TokenSafetyMargin := 300

  /**
   * The `expire` field of the exchange reply: absent (the default lifetime
   * is used), a number of seconds, or null or not a number, which makes the
   * expiry arithmetic raise.
   */
  datatype Expire = ExpireAbsent | ExpireSeconds(seconds: int) | ExpireInvalid

  /**
   * The reply to the token exchange: the POST raised (connection error,
   * an HTTP error status, a body that is not JSON), or the JSON body's
   * `code`, `tenant_access_token` ("" when absent) and `expire` fields.
   */
  datatype ExchangeReply =
    | ExchangeRaised
    | ExchangeAnswered(code: Option<int>, token: string, expire: Expire)

  /**
   * The reply to any other API call: the request raised or its body was not
   * JSON, or the HTTP status with the body's `code`, `data.image_key` and
   * `data.user` (empty when absent).
   */
  datatype ApiReply =
    | ApiRaised
    | ApiAnswered(status: int, code: Option<int>, imageKey: Option<string>, user: map<string, string>)

  /** What the outside world answers to one client call: clock, token exchange, API reply. */
  datatype Env = Env(now: int, exchange: ExchangeReply, reply: ApiReply)

  /** The JSON `content` of a message: `{"text": …}` or `{"image_key": …}`. */
  datatype Body = TextBody(text: string) | ImageBody(imageKey: string)

  /** An HTTP request the client issues. */
  datatype Request =
    | TokenExchange(appId: string, appSecret: string)
    | PostMessage(receiveId: string, receiveIdType: string, msgType: string, content: Body)
    | PostReply(messageId: string, msgType: string, content: Body)
    | GetUser(openId: string)
    | PostImage(image: Bytes)

  /** `_tenant_access_token` ("" for None) and `_token_expire_time`, in seconds. */
  datatype TokenCache = TokenCache(token: string, expireTime: int)

  /** The state of a freshly constructed client. */
  const EmptyCache := TokenCache("", 0)

  /** The outcome of one token fetch: the new cache, the token returned, whether an exchange was made. */
  datatype TokenFetch = TokenFetch(cache: TokenCache, token: string, exchanged: bool)

  /** The cached token may be used at time `now`. */
  predicate IsFresh(c: TokenCache, now: int) {
    c.token != "" && now < c.expireTime
  }

  predicate ExchangeSucceeded(reply: ExchangeReply) {
    reply.ExchangeAnswered? && reply.code == Some(0)
  }

  /** A code-0 reply whose expiry can be computed: the token is stored with its expiry. */
  predicate ExchangeRenews(reply: ExchangeReply) {
    ExchangeSucceeded(reply) && !reply.expire.ExpireInvalid?
  }

  function ExpiresIn(reply: ExchangeReply): int
    requires ExchangeRenews(reply)
  {
    match reply.expire
    case ExpireSeconds(n) => n
    case _ => DefaultTokenTtl
  }

  /** `raise_for_status()` raises for client and server error statuses. */
  predicate RaisesForStatus(status: int) {
    400 <= status < 600
  }

  /** `_get_tenant_access_token`: serve the cache while fresh, else exchange. */
  function FetchToken(c: TokenCache, now: int, reply: ExchangeReply): (r: TokenFetch)
    ensures r.exchanged <==> !IsFresh(c, now)
    ensures !r.exchanged ==> r.cache == c && r.token == c.token && r.token != ""
    ensures r.token != "" ==> r.token == r.cache.token
    ensures r.cache != c ==> r.exchanged && ExchangeSucceeded(reply)
    ensures r.cache.expireTime != c.expireTime ==> r.exchanged && ExchangeRenews(reply)
    ensures r.exchanged && ExchangeRenews(reply) ==>
              r.token == reply.token && r.cache == TokenCache(reply.token, now + ExpiresIn(reply) - TokenSafetyMargin)
    ensures r.exchanged && ExchangeSucceeded(reply) && reply.expire.ExpireInvalid? ==>
              r.token == "" && r.cache == TokenCache(reply.token, c.expireTime)
    ensures r.exchanged && !ExchangeSucceeded(reply) ==> r.token == "" && r.cache == c
  {
    if IsFresh(c, now) then TokenFetch(c, c.token, false)
    else if ExchangeRenews(reply) then
      var renewed := TokenCache(reply.token, now + ExpiresIn(reply) - TokenSafetyMargin);
      TokenFetch(renewed, renewed.token, true)
    else if ExchangeSucceeded(reply) then
      // the token is stored, then the expiry arithmetic raises and "" is returned
      TokenFetch(TokenCache(reply.token, c.expireTime), "", true)
    else TokenFetch(c, "", true)
  }

  /** The result of `upload_image` once the token fetch `f` is done. */
  function UploadOutcome(f: TokenFetch, reply: ApiReply): (key: Option<string>)
    ensures key.Some? ==> f.token != "" && reply.ApiAnswered? && reply.code == Some(0)
    ensures f.token != "" && reply.ApiAnswered? && reply.code == Some(0) ==> key == reply.imageKey
  {
    if f.token != "" && reply.ApiAnswered? && reply.code == Some(0) then reply.imageKey else None
  }

  /** A series of token fetches: final cache, number of exchanges, tokens returned. */
  datatype FetchSeries = FetchSeries(cache: TokenCache, exchanges: nat, tokens: seq<string>)

  function FetchAll(c: TokenCache, calls: seq<(int, ExchangeReply)>): (r: FetchSeries)
    ensures |r.tokens| == |calls|
    decreases |calls|
  {
    if calls == [] then FetchSeries(c, 0, [])
    else
      var f := FetchToken(c, calls[0].0, calls[0].1);
      var rest := FetchAll(f.cache, calls[1..]);
      FetchSeries(rest.cache, (if f.exchanged then 1 else 0) + rest.exchanges, [f.token] + rest.tokens)
  }

  /** Every fetch before the cached expiry is served from the cache: no exchange, same token. */
  lemma {:induction false} CacheServesUntilExpiry(c: TokenCache, calls: seq<(int, ExchangeReply)>)
    requires c.token != ""
    requires forall i :: 0 <= i < |calls| ==> calls[i].0 < c.expireTime
    ensures FetchAll(c, calls).exchanges == 0 && FetchAll(c, calls).cache == c
    ensures forall i :: 0 <= i < |calls| ==> FetchAll(c, calls).tokens[i] == c.token
    decreases |calls|
  {
    if calls != [] {
      CacheServesUntilExpiry(c, calls[1..]);
      var rest := FetchAll(c, calls[1..]);
      forall i | 0 <= i < |calls| ensures FetchAll(c, calls).tokens[i] == c.token {
        if i > 0 { assert FetchAll(c, calls).tokens[i] == rest.tokens[i - 1]; }
      }
    }
  }

  /**
   * Whenever the cached token is missing or expired (the first call of a
   * fresh client, or any call after an expiry), a renewing exchange is the
   * only exchange for every call made before `now + expire - 300`, and every
   * such call returns the new token.
   */
  lemma OneExchangePerWindow(c: TokenCache, now: int, reply: ExchangeReply, later: seq<(int, ExchangeReply)>)
    requires !IsFresh(c, now)
    requires ExchangeRenews(reply) && reply.token != ""
    requires forall i :: 0 <= i < |later| ==> later[i].0 < now + ExpiresIn(reply) - TokenSafetyMargin
    ensures FetchAll(c, [(now, reply)] + later).exchanges == 1
    ensures forall i :: 0 <= i <= |later| ==> FetchAll(c, [(now, reply)] + later).tokens[i] == reply.token
  {
    var calls := [(now, reply)] + later;
    var f := FetchToken(c, now, reply);
    assert calls[1..] == later;
    CacheServesUntilExpiry(f.cache, later);
    var r := FetchAll(c, calls);
    forall i | 0 <= i <= |later| ensures r.tokens[i] == reply.token {
      if i > 0 { assert r.tokens[i] == FetchAll(f.cache, later).tokens[i - 1]; }
    }
  }

  /** The send and reply calls report success iff the JSON body's code is 0. */
  predicate MessageAccepted(reply: ApiReply) {
    reply.ApiAnswered? && !RaisesForStatus(reply.status) && reply.code == Some(0)
  }

  /** `FeishuClient`: the token cache lives in two mutable fields. */
  class FeishuClient {
    const appId: string
    const appSecret: string
    var tenantAccessToken: string
    var tokenExpireTime: int
    /** Every HTTP request issued so far, in order. */
    ghost var requests: seq<Request>

    function Cache(): TokenCache
      reads this
    {
      TokenCache(tenantAccessToken, tokenExpireTime)
    }

    /** The request a token fetch adds to the log. */
    function ExchangeLog(f: TokenFetch): seq<Request> {
      if f.exchanged then [TokenExchange(appId, appSecret)] else []
    }

    constructor (appId: string, appSecret: string)
      ensures this.appId == appId && this.appSecret == appSecret
      ensures Cache() == EmptyCache && requests == []
    {
      this.appId := appId;
      this.appSecret := appSecret;
      tenantAccessToken := "";
      tokenExpireTime := 0;
      requests := [];
    }

    /** `_get_tenant_access_token`. There is no lock around the refresh. */
    method GetTenantAccessToken(now: int, exchange: ExchangeReply) returns (token: string)
      modifies this
      ensures var f := FetchToken(old(Cache()), now, exchange);
              Cache() == f.cache && token == f.token && requests == old(requests) + ExchangeLog(f)
    {
      if tenantAccessToken != "" && now < tokenExpireTime {
        return tenantAccessToken;
      }
      requests := requests + [TokenExchange(appId, appSecret)];
      match exchange
      case ExchangeAnswered(Some(0), newToken, expire) =>
        tenantAccessToken := newToken;
        if expire.ExpireInvalid? {
          return "";  // `now + expire` raises after the token was stored
        }
        tokenExpireTime := now + ExpiresIn(exchange) - TokenSafetyMargin;
        token := tenantAccessToken;
      case _ =>
        token := "";
    }

    /** `send_message`: no request without a token; true iff the platform answers code 0. */
    method SendMessage(receiveId: string, receiveIdType: string, msgType: string, content: Body, env: Env)
      returns (ok: bool)
      modifies this
      ensures var f := FetchToken(old(Cache()), env.now, env.exchange);
              && Cache() == f.cache
              && ok == (f.token != "" && MessageAccepted(env.reply))
              && requests == old(requests) + ExchangeLog(f)
                   + (if f.token != "" then [PostMessage(receiveId, receiveIdType, msgType, content)] else [])
    {
      var token := GetTenantAccessToken(env.now, env.exchange);
      if token == "" {
        return false;
      }
      requests := requests + [PostMessage(receiveId, receiveIdType, msgType, content)];
      ok := MessageAccepted(env.reply);
    }

    /** `reply_message`: the same guard and success test, posted as a reply to `messageId`. */
    method ReplyMessage(messageId: string, msgType: string, content: Body, env: Env) returns (ok: bool)
      modifies this
      ensures var f := FetchToken(old(Cache()), env.now, env.exchange);
              && Cache() == f.cache
              && ok == (f.token != "" && MessageAccepted(env.reply))
              && requests == old(requests) + ExchangeLog(f)
                   + (if f.token != "" then [PostReply(messageId, msgType, content)] else [])
    {
      var token := GetTenantAccessToken(env.now, env.exchange);
      if token == "" {
        return false;
      }
      requests := requests + [PostReply(messageId, msgType, content)];
      ok := MessageAccepted(env.reply);
    }

    /**
     * `get_user_info`: None without a token; otherwise `data.user` when the
     * body's code is 0. An HTTP error status is only logged here.
     */
    method GetUserInfo(openId: string, env: Env) returns (user: Option<map<string, string>>)
      modifies this
      ensures var f := FetchToken(old(Cache()), env.now, env.exchange);
              && Cache() == f.cache
              && user == (if f.token != "" && env.reply.ApiAnswered? && env.reply.code == Some(0)
                          then Some(env.reply.user) else None)
              && requests == old(requests) + ExchangeLog(f) + (if f.token != "" then [GetUser(openId)] else [])
    {
      var token := GetTenantAccessToken(env.now, env.exchange);
      if token == "" {
        return None;
      }
      requests := requests + [GetUser(openId)];
      match env.reply
      case ApiAnswered(_, Some(0), _, u) => user := Some(u);
      case _ => user := None;
    }

    /** `upload_image`: None without a token; otherwise `data.image_key` when the code is 0. */
    method UploadImage(image: Bytes, env: Env) returns (imageKey: Option<string>)
      modifies this
      ensures var f := FetchToken(old(Cache()), env.now, env.exchange);
              && Cache() == f.cache
              && imageKey == UploadOutcome(f, env.reply)
              && requests == old(requests) + ExchangeLog(f) + (if f.token != "" then [PostImage(image)] else [])
    {
      var token := GetTenantAccessToken(env.now, env.exchange);
      if token == "" {
        return None;
      }
      requests := requests + [PostImage(image)];
      match env.reply
      case ApiAnswered(_, Some(0), key, _) => imageKey := key;
      case _ => imageKey := None;
    }

    /** `send_image_message`: a `send_message` of type "image" whose content names the key. */
    method SendImageMessage(receiveId: string, receiveIdType: string, imageKey: string, env: Env)
      returns (ok: bool)
      modifies this
      ensures var f := FetchToken(old(Cache()), env.now, env.exchange);
              && Cache() == f.cache
              && ok == (f.token != "" && MessageAccepted(env.reply))
              && requests == old(requests) + ExchangeLog(f)
                   + (if f.token != "" then [PostMessage(receiveId, receiveIdType, "image", ImageBody(imageKey))] else [])
    {
      ok := SendMessage(receiveId, receiveIdType, "image", ImageBody(imageKey), env);
    }
  }
}

=== FILE: maibot_client.dfy ===
/**
 * Outbound dispatch: what the adapter does with a message coming back from
 * MaiBot (`handle_maibot_response`). A `MessageBase` reply, or a legacy
 * "send_msg" action, becomes an ordered trace of Feishu calls, one
 * executor job each: send a text, reply to a message with a text, or upload
 * an image and then send it. Base64 decoding is an input `decode`, None
 * where `base64.b64decode` raises.
 */
module MaiBotClient {
  import opened Wrappers
  import opened PyStr
  import opened MaimMessage
  import opened FeishuApi

  /** `(receive_id, receive_id_type)`. */
  datatype Target = Target(receiveId: string, receiveIdType: string)

  /** One Feishu job issued by the dispatcher. */
  datatype Call =
    | SendText(target: Target, text: string)            // send_message(id, type, "text", {"text": …})
    | ReplyText(messageId: string, text: string)        // reply_message(id, "text", {"text": …})
    | UploadThenSendImage(target: Target, image: Bytes) // upload_image, then send_image_message if a key comes back

  /** What one segment contributes: calls, or an exception that ends the handler. */
  datatype Step = Emit(calls: seq<Call>) | Abort

  const Base64Marker := "base64://"

  /** The texts carried by the text calls (sent or replied), in order. */
  function CallTexts(calls: seq<Call>): seq<string> {
    if calls == [] then []
    else (match calls[0]
          case SendText(_, text) => [text]
          case ReplyText(_, text) => [text]
          case UploadThenSendImage(_, _) => []) + CallTexts(calls[1..])
  }

  /** The images carried by the upload-then-send jobs, in order. */
  function CallImages(calls: seq<Call>): seq<Bytes> {
    if calls == [] then []
    else (match calls[0]
          case UploadThenSendImage(_, image) => [image]
          case _ => []) + CallImages(calls[1..])
  }

  /**
   * Associativity of call traces. Dafny knows it; calling it at the end of
   * each iteration of the two segment loops (`SendReplySegments`,
   * `SendActionSegments`) keeps their proofs small and stable.
   */
  lemma ConcatAssoc(a: seq<Call>, b: seq<Call>, c: seq<Call>)
    ensures a + (b + c) == (a + b) + c
  {
  }

  // ---------------------------------------------------------------------
  // parse_seg_to_list

  /** The segment types the flattening keeps. */
  predicate Kept(seg: Seg) {
    seg.segType == "text" || seg.segType == "image" || seg.segType == "emoji"
  }

  /**
   * `parse_seg_to_list`: flatten nested "seglist" segments in order, keeping
   * text, image and emoji segments with their data and dropping the rest.
   * (A "seglist" whose data is not a list cannot come out of
   * `MessageBase.from_dict`; it contributes nothing here.)
   */
  function ParseSegToList(seg: Seg): (r: seq<Seg>)
    ensures forall i :: 0 <= i < |r| ==> Kept(r[i])
    decreases seg, 1
  {
    if seg.segType == "seglist" then
      match seg.data
      case Segs(items) => ParseItems(items)
      case _ => []
    else if Kept(seg) then [seg]
    else []
  }

  /** The `for sub_seg in seg.data: result.extend(…)` loop. */
  function ParseItems(items: seq<Seg>): (r: seq<Seg>)
    ensures forall i :: 0 <= i < |r| ==> Kept(r[i])
    decreases items, 0
  {
    if items == [] then [] else ParseSegToList(items[0]) + ParseItems(items[1..])
  }

  /** Every segment that is not a "seglist", in left-to-right order. */
  function Leaves(seg: Seg): seq<Seg>
    decreases seg, 1
  {
    if seg.segType == "seglist" then
      match seg.data
      case Segs(items) => LeavesOf(items)
      case _ => []
    else [seg]
  }

  function LeavesOf(items: seq<Seg>): seq<Seg>
    decreases items, 0
  {
    if items == [] then [] else Leaves(items[0]) + LeavesOf(items[1..])
  }

  /** The kept segments of a list, in order. */
  function Filter(s: seq<Seg>): (r: seq<Seg>)
    ensures |r| <= |s|
    ensures forall i :: 0 <= i < |r| ==> Kept(r[i]) && r[i] in s
  {
    if s == [] then [] else (if Kept(s[0]) then [s[0]] else []) + Filter(s[1..])
  }

  lemma {:induction false} FilterAppend(a: seq<Seg>, b: seq<Seg>)
    ensures Filter(a + b) == Filter(a) + Filter(b)
    decreases |a|
  {
    if a != [] {
      assert (a + b)[1..] == a[1..] + b;
      FilterAppend(a[1..], b);
    } else {
      assert a + b == b;
    }
  }

  /**
   * Flattening keeps exactly the text, image and emoji leaves of the tree,
   * in order, each with its data; hence it never yields more entries than
   * there are leaves.
   */
  lemma {:induction false} ParseSegToListKeepsLeaves(seg: Seg)
    ensures ParseSegToList(seg) == Filter(Leaves(seg))
    ensures |ParseSegToList(seg)| <= |Leaves(seg)|
    decreases seg, 1
  {
    if seg.segType == "seglist" {
      match seg.data
      case Segs(items) => ParseItemsKeepsLeaves(items);
      case _ =>
    }
  }

  lemma {:induction false} ParseItemsKeepsLeaves(items: seq<Seg>)
    ensures ParseItems(items) == Filter(LeavesOf(items))
    decreases items, 0
  {
    if items != [] {
      ParseSegToListKeepsLeaves(items[0]);
      ParseItemsKeepsLeaves(items[1..]);
      FilterAppend(Leaves(items[0]), LeavesOf(items[1..]));
    }
  }

  /** Flattening a seglist of `a` then `b` is flattening `a`, then flattening `b`. */
  lemma {:induction false} ParseItemsAppend(a: seq<Seg>, b: seq<Seg>)
    ensures ParseSegToList(Seg("seglist", Segs(a + b)))
            == ParseSegToList(Seg("seglist", Segs(a))) + ParseSegToList(Seg("seglist", Segs(b)))
    decreases |a|
  {
    if a == [] {
      assert a + b == b;
    } else {
      assert (a + b)[1..] == a[1..] + b;
      ParseItemsAppend(a[1..], b);
    }
  }

  // ---------------------------------------------------------------------
  // MessageBase replies: handle_message_base_reply

  /** Group first, then user; no call without either. */
  function ReplyTarget(info: MessageInfo): (t: Option<Target>)
    ensures info.groupInfo.Some? ==> t == Some(Target(info.groupInfo.value.groupId, "chat_id"))
    ensures info.groupInfo.None? && info.userInfo.Some? ==> t == Some(Target(info.userInfo.value.userId, "open_id"))
    ensures t.None? <==> info.groupInfo.None? && info.userInfo.None?
  {
    match info.groupInfo
    case Some(g) => Some(Target(g.groupId, "chat_id"))
    case None =>
      match info.userInfo
      case Some(u) => Some(Target(u.userId, "open_id"))
      case None => None
  }

  /**
   * `additional_config.feishu.message_id`, "" when the key or the id is
   * missing. A `feishu` value that is not a dict makes the lookup raise.
   */
  function OriginalMessageId(info: MessageInfo): string
    requires !info.additionalConfig.feishu.EchoNotDict?
  {
    match info.additionalConfig.feishu
    case Echo(f) => f.messageId
    case EchoAbsent => ""
  }

  /** The image data with every "base64://" removed when it starts with one. */
  function ReplyImagePayload(data: string): string {
    if StartsWith(data, Base64Marker) then ReplaceAll(data, Base64Marker, "") else data
  }

  /** A call the reply loop may issue for target `t` and original message `orig`. */
  predicate IsReplyCall(c: Call, t: Target, orig: string) {
    match c
    case SendText(target, text) => orig == "" && target == t && !IsBlank(text)
    case ReplyText(messageId, text) => orig != "" && messageId == orig && !IsBlank(text)
    case UploadThenSendImage(target, _) => target == t
  }

  /** One iteration of the reply loop. */
  function ReplySegStep(t: Target, orig: string, seg: Seg, decode: string -> Option<Bytes>): (r: Step)
    ensures r.Abort? <==> (seg.segType == "text" || seg.segType == "image") && !seg.data.Str?
    ensures r.Emit? ==> |r.calls| <= 1 && forall c :: c in r.calls ==> IsReplyCall(c, t, orig)
    ensures seg.segType == "text" && seg.data.Str? ==> (r.calls != [] <==> !IsBlank(seg.data.s))
    ensures seg.segType == "image" && seg.data.Str? ==>
              (r.calls != [] <==> decode(ReplyImagePayload(seg.data.s)).Some?)
    ensures seg.segType != "text" && seg.segType != "image" ==> r == Emit([])
    ensures seg.segType == "text" && seg.data.Str? && !IsBlank(seg.data.s) ==>
              r == Emit([if orig != "" then ReplyText(orig, seg.data.s) else SendText(t, seg.data.s)])
    ensures seg.segType == "image" && seg.data.Str? && decode(ReplyImagePayload(seg.data.s)).Some? ==>
              r == Emit([UploadThenSendImage(t, decode(ReplyImagePayload(seg.data.s)).value)])
  {
    if seg.segType == "text" then
      match seg.data
      case Str(text) =>
        if IsBlank(text) then Emit([])
        else if orig != "" then Emit([ReplyText(orig, text)])
        else Emit([SendText(t, text)])
      case _ => Abort
    else if seg.segType == "image" then
      match seg.data
      case Str(data) =>
        (match decode(ReplyImagePayload(data))
         case Some(image) => Emit([UploadThenSendImage(t, image)])
         case None => Emit([]))
      case _ => Abort
    else Emit([])
  }

  /** The calls of the reply loop over flattened segments, up to the first exception. */
  function ReplyCalls(t: Target, orig: string, segs: seq<Seg>, decode: string -> Option<Bytes>): (r: seq<Call>)
    ensures |r| <= |segs|
    ensures forall i :: 0 <= i < |r| ==> IsReplyCall(r[i], t, orig)
    decreases |segs|
  {
    if segs == [] then []
    else
      match ReplySegStep(t, orig, segs[0], decode)
      case Abort => []
      case Emit(calls) => calls + ReplyCalls(t, orig, segs[1..], decode)
  }

  /** Calls are issued in segment order: the calls of `a`, then those of `b`. */
  lemma {:induction false} ReplyCallsAppend(t: Target, orig: string, a: seq<Seg>, b: seq<Seg>, decode: string -> Option<Bytes>)
    requires forall i :: 0 <= i < |a| ==> ReplySegStep(t, orig, a[i], decode).Emit?
    ensures ReplyCalls(t, orig, a + b, decode) == ReplyCalls(t, orig, a, decode) + ReplyCalls(t, orig, b, decode)
    decreases |a|
  {
    if a == [] {
      assert a + b == b;
    } else {
      assert (a + b)[0] == a[0];
      assert (a + b)[1..] == a[1..] + b;
      ReplyCallsAppend(t, orig, a[1..], b, decode);
    }
  }

  /** The non-blank string data of the text segments, in order. */
  function SegmentTexts(segs: seq<Seg>): seq<string> {
    if segs == [] then []
    else (if segs[0].segType == "text" && segs[0].data.Str? && !IsBlank(segs[0].data.s)
          then [segs[0].data.s] else []) + SegmentTexts(segs[1..])
  }

  /** The decodable payloads of the image segments, decoded, in order. */
  function SegmentImages(segs: seq<Seg>, decode: string -> Option<Bytes>): seq<Bytes> {
    if segs == [] then []
    else (if segs[0].segType == "image" && segs[0].data.Str? && decode(ReplyImagePayload(segs[0].data.s)).Some?
          then [decode(ReplyImagePayload(segs[0].data.s)).value] else []) + SegmentImages(segs[1..], decode)
  }

  /**
   * When no text or image segment holds a non-string, the calls carry
   * exactly the segments' non-blank texts and decoded images, each in
   * segment order.
   */
  lemma {:induction false} ReplyCallsCarryPayloads(t: Target, orig: string, segs: seq<Seg>, decode: string -> Option<Bytes>)
    requires forall i :: 0 <= i < |segs| && (segs[i].segType == "text" || segs[i].segType == "image") ==> segs[i].data.Str?
    ensures CallTexts(ReplyCalls(t, orig, segs, decode)) == SegmentTexts(segs)
    ensures CallImages(ReplyCalls(t, orig, segs, decode)) == SegmentImages(segs, decode)
    decreases |segs|
  {
    if segs != [] {
      ReplyCallsCarryPayloads(t, orig, segs[1..], decode);
      var step := ReplySegStep(t, orig, segs[0], decode);
      var rest := ReplyCalls(t, orig, segs[1..], decode);
      assert step.Emit? && ReplyCalls(t, orig, segs, decode) == step.calls + rest;
      if step.calls != [] {
        assert step.calls == [step.calls[0]];
      } else {
        assert step.calls + rest == rest;
      }
    }
  }

  /** The whole of `handle_message_base_reply`; None is a `from_dict` that raised. */
  function BaseReplyCalls(decoded: Option<MessageBase>, decode: string -> Option<Bytes>): seq<Call> {
    match decoded
    case None => []
    case Some(m) =>
      match ReplyTarget(m.messageInfo)
      case None => []
      case Some(t) =>
        if m.messageInfo.additionalConfig.feishu.EchoNotDict? then []  // the lookup raises before any call
        else ReplyCalls(t, OriginalMessageId(m.messageInfo), ParseSegToList(m.messageSegment), decode)
  }

  lemma ReplyCallsUnfold(t: Target, orig: string, segs: seq<Seg>, i: int, decode: string -> Option<Bytes>)
    requires 0 <= i < |segs|
    ensures ReplyCalls(t, orig, segs[i..], decode)
            == match ReplySegStep(t, orig, segs[i], decode)
               case Abort => []
               case Emit(calls) => calls + ReplyCalls(t, orig, segs[i + 1..], decode)
  {
    assert segs[i..][0] == segs[i] && segs[i..][1..] == segs[i + 1..];
  }

  /** The segment loop of `handle_message_base_reply`. */
  method SendReplySegments(t: Target, orig: string, segs: seq<Seg>, decode: string -> Option<Bytes>)
    returns (calls: seq<Call>)
    ensures calls == ReplyCalls(t, orig, segs, decode)
  {
    calls := [];
    var i := 0;
    assert segs[i..] == segs;
    while i < |segs|
      invariant 0 <= i <= |segs|
      invariant ReplyCalls(t, orig, segs, decode) == calls + ReplyCalls(t, orig, segs[i..], decode)
    {
      var seg := segs[i];
      ReplyCallsUnfold(t, orig, segs, i, decode);
      ghost var before := calls;
      ghost var step := ReplySegStep(t, orig, seg, decode);
      if seg.segType == "text" {
        if !seg.data.Str? {
          break;  // `data.strip()` raises; the handler's outer except ends the loop
        }
        var text := seg.data.s;
        if !IsBlank(text) {
          if orig != "" {
            calls := calls + [ReplyText(orig, text)];
          } else {
            calls := calls + [SendText(t, text)];
          }
        }
      } else if seg.segType == "image" {
        if !seg.data.Str? {
          break;  // `data.startswith` raises outside the inner try
        }
        var base64Str := ReplyImagePayload(seg.data.s);
        var image := decode(base64Str);
        if image.Some? {
          calls := calls + [UploadThenSendImage(t, image.value)];
        }
        // a failed decode is caught and logged: the loop goes on
      }
      // "emoji": nothing is sent
      assert step.Emit? && calls == before + step.calls;
      ghost var rest := ReplyCalls(t, orig, segs[i + 1..], decode);
      ConcatAssoc(before, step.calls, rest);
      i := i + 1;
    }
    assert i == |segs| ==> segs[i..] == [];
  }

  /** `handle_message_base_reply`. */
  method HandleMessageBaseReply(decoded: Option<MessageBase>, decode: string -> Option<Bytes>)
    returns (calls: seq<Call>)
    ensures calls == BaseReplyCalls(decoded, decode)
    ensures decoded.Some? && ReplyTarget(decoded.value.messageInfo).None? ==> calls == []
    ensures decoded.Some? && decoded.value.messageInfo.additionalConfig.feishu.EchoNotDict? ==> calls == []
  {
    if decoded.None? {
      return [];
    }
    var m := decoded.value;
    var target := ReplyTarget(m.messageInfo);
    if target.None? {
      return [];
    }
    var segments := ParseSegToList(m.messageSegment);
    if m.messageInfo.additionalConfig.feishu.EchoNotDict? {
      return [];  // `feishu_info.get` raises; the outer except drops the reply
    }
    calls := SendReplySegments(target.value, OriginalMessageId(m.messageInfo), segments, decode);
  }

  /**
   * A reply that echoes the `additional_config` of an inbound message with a
   * message id answers in the thread: every text goes to `reply_message` on
   * that id, none to `send_message`.
   */
  lemma EchoedReplyThreads(m: MessageBase, f: FeishuInfo, decode: string -> Option<Bytes>)
    requires m.messageInfo.additionalConfig.feishu == Echo(f) && f.messageId != ""
    ensures forall c :: c in BaseReplyCalls(Some(m), decode) ==>
              !c.SendText? && (c.ReplyText? ==> c.messageId == f.messageId)
  {
  }

  /**
   * A non-blank text then a decodable image: exactly one text call carrying
   * that text and one upload-then-send job, in that order. Whether the upload
   * later succeeds happens inside the second job, so the text call is there
   * either way.
   */
  lemma TextThenImage(t: Target, orig: string, s: string, data: string, image: Bytes, decode: string -> Option<Bytes>)
    requires !IsBlank(s)
    requires decode(ReplyImagePayload(data)) == Some(image)
    ensures ReplyCalls(t, orig, [Seg("text", Str(s)), Seg("image", Str(data))], decode)
            == [if orig != "" then ReplyText(orig, s) else SendText(t, s), UploadThenSendImage(t, image)]
  {
    var segs := [Seg("text", Str(s)), Seg("image", Str(data))];
    assert segs[1..][1..] == [];
  }

  // ---------------------------------------------------------------------
  // Legacy actions: send_msg / send_private_msg / send_group_msg

  /**
   * A legacy segment: not a dict, or a dict with its `type` ("" when absent)
   * and what `data.get("text", "")` and `data.get("file", "")` give (a
   * non-string, or a `data` that is not a dict, is `Other`).
   */
  datatype ActionSeg = NonDict | SegDict(segType: string, text: SegData, file: SegData)

  /** `params["message"]`: a list of segments, or any other value as `str(raw)`. */
  datatype ActionMessage = SegmentList(segs: seq<ActionSeg>) | Scalar(rendered: string)

  /** `params`: `user_id`, `group_id`, `target_id` as strings ("" when absent or falsy), and `message`. */
  datatype ActionParams = ActionParams(userId: string, groupId: string, targetId: string, message: ActionMessage)

  /** group_id, then user_id, then target_id with the "oc_" chat-id prefix test. */
  function ActionTarget(p: ActionParams): (t: Option<Target>)
    ensures p.groupId != "" ==> t == Some(Target(p.groupId, "chat_id"))
    ensures p.groupId == "" && p.userId != "" ==> t == Some(Target(p.userId, "open_id"))
    ensures p.groupId == "" && p.userId == "" && p.targetId != "" ==>
              t.Some? && t.value.receiveId == p.targetId
              && (t.value.receiveIdType == "chat_id" <==> StartsWith(p.targetId, "oc_"))
              && (t.value.receiveIdType == "open_id" <==> !StartsWith(p.targetId, "oc_"))
    ensures t.None? <==> p.groupId == "" && p.userId == "" && p.targetId == ""
  {
    if p.groupId != "" then Some(Target(p.groupId, "chat_id"))
    else if p.userId != "" then Some(Target(p.userId, "open_id"))
    else if p.targetId != "" then
      Some(Target(p.targetId, if StartsWith(p.targetId, "oc_") then "chat_id" else "open_id"))
    else None
  }

  /** A non-list message is one text segment holding its string form. */
  function ActionSegments(msg: ActionMessage): (segs: seq<ActionSeg>)
    ensures msg.Scalar? ==> segs == [SegDict("text", Str(msg.rendered), Str(""))]
  {
    match msg
    case SegmentList(segs) => segs
    case Scalar(rendered) => [SegDict("text", Str(rendered), Str(""))]
  }

  /** What is decoded from a legacy `file`: "" means not base64, nothing is uploaded. */
  function LegacyImagePayload(file: string): (b: string)
    ensures StartsWith(file, Base64Marker) ==> b == ReplaceAll(file, Base64Marker, "")
    ensures !Contains(file, "base64") ==> b == ""
  {
    if StartsWith(file, Base64Marker) then ReplaceAll(file, Base64Marker, "")
    else if Contains(file, "base64") then file
    else ""
  }

  /** A call the legacy loop may issue for target `t`. */
  predicate IsLegacyCall(c: Call, t: Target) {
    match c
    case SendText(target, text) => target == t && !IsBlank(text)
    case ReplyText(_, _) => false
    case UploadThenSendImage(target, _) => target == t
  }

  /** One iteration of the legacy loop. */
  function LegacySegStep(t: Target, seg: ActionSeg, decode: string -> Option<Bytes>): (r: Step)
    ensures r.Abort? <==> seg.SegDict? && ((seg.segType == "text" && !seg.text.Str?) || (seg.segType == "image" && !seg.file.Str?))
    ensures r.Emit? ==> |r.calls| <= 1 && forall c :: c in r.calls ==> IsLegacyCall(c, t)
    ensures seg.NonDict? ==> r == Emit([])
    ensures seg.SegDict? && seg.segType == "text" && seg.text.Str? ==> (r.calls != [] <==> !IsBlank(seg.text.s))
    ensures seg.SegDict? && seg.segType == "image" && seg.file.Str? && !Contains(seg.file.s, "base64") ==> r == Emit([])
    ensures seg.SegDict? && seg.segType != "text" && seg.segType != "image" ==> r == Emit([])
    ensures seg.SegDict? && seg.segType == "text" && seg.text.Str? && !IsBlank(seg.text.s) ==>
              r == Emit([SendText(t, seg.text.s)])
    ensures seg.SegDict? && seg.segType == "image" && seg.file.Str? && LegacyImagePayload(seg.file.s) != ""
            && decode(LegacyImagePayload(seg.file.s)).Some? ==>
              r == Emit([UploadThenSendImage(t, decode(LegacyImagePayload(seg.file.s)).value)])
  {
    match seg
    case NonDict => Emit([])
    case SegDict(segType, text, file) =>
      if segType == "text" then
        match text
        case Str(s) => if IsBlank(s) then Emit([]) else Emit([SendText(t, s)])
        case _ => Abort
      else if segType == "image" then
        match file
        case Str(f) =>
          var payload := LegacyImagePayload(f);
          if payload == "" then Emit([])
          else
            (match decode(payload)
             case Some(image) => Emit([UploadThenSendImage(t, image)])
             case None => Emit([]))
        case _ => Abort
      else Emit([])
  }

  /** The calls of the legacy loop, up to the first exception. */
  function LegacyCalls(t: Target, segs: seq<ActionSeg>, decode: string -> Option<Bytes>): (r: seq<Call>)
    ensures |r| <= |segs|
    ensures forall i :: 0 <= i < |r| ==> IsLegacyCall(r[i], t)
    decreases |segs|
  {
    if segs == [] then []
    else
      match LegacySegStep(t, segs[0], decode)
      case Abort => []
      case Emit(calls) => calls + LegacyCalls(t, segs[1..], decode)
  }

  /** Calls are issued in segment order: the calls of `a`, then those of `b`. */
  lemma {:induction false} LegacyCallsAppend(t: Target, a: seq<ActionSeg>, b: seq<ActionSeg>, decode: string -> Option<Bytes>)
    requires forall i :: 0 <= i < |a| ==> LegacySegStep(t, a[i], decode).Emit?
    ensures LegacyCalls(t, a + b, decode) == LegacyCalls(t, a, decode) + LegacyCalls(t, b, decode)
    decreases |a|
  {
    if a == [] {
      assert a + b == b;
    } else {
      assert (a + b)[0] == a[0];
      assert (a + b)[1..] == a[1..] + b;
      LegacyCallsAppend(t, a[1..], b, decode);
    }
  }

  /** The non-blank text values of the text dicts, in order. */
  function LegacyTexts(segs: seq<ActionSeg>): seq<string> {
    if segs == [] then []
    else (if segs[0].SegDict? && segs[0].segType == "text" && segs[0].text.Str? && !IsBlank(segs[0].text.s)
          then [segs[0].text.s] else []) + LegacyTexts(segs[1..])
  }

  /** The base64 files of the image dicts that decode, decoded, in order. */
  function LegacyImages(segs: seq<ActionSeg>, decode: string -> Option<Bytes>): seq<Bytes> {
    if segs == [] then []
    else (if segs[0].SegDict? && segs[0].segType == "image" && segs[0].file.Str?
             && LegacyImagePayload(segs[0].file.s) != "" && decode(LegacyImagePayload(segs[0].file.s)).Some?
          then [decode(LegacyImagePayload(segs[0].file.s)).value] else []) + LegacyImages(segs[1..], decode)
  }

  /**
   * When no text or image dict holds a non-string value, the calls carry
   * exactly the non-blank texts and the decoded base64 images, each in
   * segment order.
   */
  lemma {:induction false} LegacyCallsCarryPayloads(t: Target, segs: seq<ActionSeg>, decode: string -> Option<Bytes>)
    requires forall i :: 0 <= i < |segs| && segs[i].SegDict? ==>
               (segs[i].segType == "text" ==> segs[i].text.Str?) && (segs[i].segType == "image" ==> segs[i].file.Str?)
    ensures CallTexts(LegacyCalls(t, segs, decode)) == LegacyTexts(segs)
    ensures CallImages(LegacyCalls(t, segs, decode)) == LegacyImages(segs, decode)
    decreases |segs|
  {
    if segs != [] {
      LegacyCallsCarryPayloads(t, segs[1..], decode);
      var step := LegacySegStep(t, segs[0], decode);
      var rest := LegacyCalls(t, segs[1..], decode);
      assert step.Emit? && LegacyCalls(t, segs, decode) == step.calls + rest;
      if step.calls != [] {
        assert step.calls == [step.calls[0]];
      } else {
        assert step.calls + rest == rest;
      }
    }
  }

  lemma LegacyCallsUnfold(t: Target, segs: seq<ActionSeg>, i: int, decode: string -> Option<Bytes>)
    requires 0 <= i < |segs|
    ensures LegacyCalls(t, segs[i..], decode)
            == match LegacySegStep(t, segs[i], decode)
               case Abort => []
               case Emit(calls) => calls + LegacyCalls(t, segs[i + 1..], decode)
  {
    assert segs[i..][0] == segs[i] && segs[i..][1..] == segs[i + 1..];
  }

  /** The segment loop of the legacy path. */
  method SendActionSegments(t: Target, segs: seq<ActionSeg>, decode: string -> Option<Bytes>)
    returns (calls: seq<Call>)
    ensures calls == LegacyCalls(t, segs, decode)
  {
    calls := [];
    var i := 0;
    assert segs[i..] == segs;
    while i < |segs|
      invariant 0 <= i <= |segs|
      invariant LegacyCalls(t, segs, decode) == calls + LegacyCalls(t, segs[i..], decode)
    {
      var seg := segs[i];
      LegacyCallsUnfold(t, segs, i, decode);
      ghost var before := calls;
      ghost var step := LegacySegStep(t, seg, decode);
      match seg {
      case NonDict =>  // not a dict: skipped
      case SegDict(segType, text, file) =>
        if segType == "text" {
          if !text.Str? {
            break;  // `text.strip()` raises; the handler's outer except ends the loop
          }
          if !IsBlank(text.s) {
            calls := calls + [SendText(t, text.s)];
          }
        } else if segType == "image" {
          if !file.Str? {
            break;  // `file_content.startswith` raises outside the inner try
          }
          var base64Str := LegacyImagePayload(file.s);
          if base64Str != "" {
            var image := decode(base64Str);
            if image.Some? {
              calls := calls + [UploadThenSendImage(t, image.value)];
            }
            // a failed decode is caught and logged: the loop goes on
          }
        }
        // "emoji", "face" and any other type: nothing is sent
      }
      assert step.Emit? && calls == before + step.calls;
      ghost var rest := LegacyCalls(t, segs[i + 1..], decode);
      ConcatAssoc(before, step.calls, rest);
      i := i + 1;
    }
    assert i == |segs| ==> segs[i..] == [];
  }

  // ---------------------------------------------------------------------
  // handle_maibot_response

  const SendActions := {"send_msg", "send_private_msg", "send_group_msg"}

  /**
   * A dict from the bus: whether it has the `message_info` and
   * `message_segment` keys, and `MessageBase.from_dict` of it (None when that
   * raises); its `action` ("" when absent), whether it has `status` or
   * `retcode`, and its `params`.
   */
  datatype BusPayload = BusPayload(
    hasMessageInfo: bool,
    hasMessageSegment: bool,
    decoded: Option<MessageBase>,
    action: string,
    hasStatus: bool,
    hasRetcode: bool,
    params: ActionParams)

  function CommandCalls(params: ActionParams, decode: string -> Option<Bytes>): seq<Call> {
    match ActionTarget(params)
    case None => []
    case Some(t) => LegacyCalls(t, ActionSegments(params.message), decode)
  }

  /** `handle_maibot_response`. */
  method HandleMaiBotResponse(p: BusPayload, decode: string -> Option<Bytes>) returns (calls: seq<Call>)
    ensures p.hasMessageInfo && p.hasMessageSegment ==> calls == BaseReplyCalls(p.decoded, decode)
    ensures !(p.hasMessageInfo && p.hasMessageSegment) && p.action == "" && (p.hasStatus || p.hasRetcode) ==> calls == []
    ensures !(p.hasMessageInfo && p.hasMessageSegment) && p.action !in SendActions ==> calls == []
    ensures !(p.hasMessageInfo && p.hasMessageSegment) && p.action in SendActions ==> calls == CommandCalls(p.params, decode)
  {
    if p.hasMessageInfo && p.hasMessageSegment {
      calls := HandleMessageBaseReply(p.decoded, decode);
      return;
    }
    if p.action == "" && (p.hasStatus || p.hasRetcode) {
      return [];
    }
    if p.action in SendActions {
      var target := ActionTarget(p.params);
      if target.None? {
        return [];
      }
      calls := SendActionSegments(target.value, ActionSegments(p.params.message), decode);
      return;
    }
    calls := [];
  }

  // ---------------------------------------------------------------------
  // The image job

  /**
   * `upload_and_send`: upload the image and send an image message only when
   * a non-empty image key comes back.
   */
  method UploadAndSend(client: FeishuClient, t: Target, image: Bytes, uploadEnv: Env, sendEnv: Env)
    returns (imageKey: Option<string>, ghost issued: seq<Request>)
    modifies client
    ensures imageKey == UploadOutcome(FetchToken(old(client.Cache()), uploadEnv.now, uploadEnv.exchange), uploadEnv.reply)
    ensures client.requests == old(client.requests) + issued
    ensures forall r :: r in issued && r.PostMessage? ==>
              imageKey.Some? && imageKey.value != ""
              && r == PostMessage(t.receiveId, t.receiveIdType, "image", ImageBody(imageKey.value))
    ensures var f1 := FetchToken(old(client.Cache()), uploadEnv.now, uploadEnv.exchange);
            var f2 := FetchToken(f1.cache, sendEnv.now, sendEnv.exchange);
            var sent := imageKey.Some? && imageKey.value != "";
            && issued == client.ExchangeLog(f1) + (if f1.token != "" then [PostImage(image)] else [])
                         + (if sent then client.ExchangeLog(f2)
                                         + (if f2.token != "" then [PostMessage(t.receiveId, t.receiveIdType, "image", ImageBody(imageKey.value))] else [])
                            else [])
            && client.Cache() == (if sent then f2.cache else f1.cache)
  {
    ghost var f1 := FetchToken(client.Cache(), uploadEnv.now, uploadEnv.exchange);
    imageKey := client.UploadImage(image, uploadEnv);
    issued := client.ExchangeLog(f1) + (if f1.token != "" then [PostImage(image)] else []);
    if imageKey.Some? && imageKey.value != "" {
      ghost var f2 := FetchToken(client.Cache(), sendEnv.now, sendEnv.exchange);
      ghost var post := PostMessage(t.receiveId, t.receiveIdType, "image", ImageBody(imageKey.value));
      var _ := client.SendImageMessage(t.receiveId, t.receiveIdType, imageKey.value, sendEnv);
      issued := issued + (client.ExchangeLog(f2) + (if f2.token != "" then [post] else []));
    }
  }
}

=== FILE: maim_message.dfy ===
/**
 * The records of the MaiBot message bus (the maim_message package) that the
 * adapter builds and reads: segments, user and group identity, message info
 * with its free-form `additional_config`, and the message itself.
 */
module MaimMessage {
  import opened Wrappers

  /**
   * The `data` of a segment: a string, a list of child segments (what
   * `Seg.from_dict` builds for the "seglist" type), or anything else.
   */
  datatype SegData = Str(s: string) | Segs(items: seq<Seg>) | Other

  /** `Seg(type, data)`: one unit of content. */
  datatype Seg = Seg(segType: string, data: SegData)

  datatype UserInfo = UserInfo(platform: string, userId: string, userNickname: string, userCardname: string)

  datatype GroupInfo = GroupInfo(platform: string, groupId: string, groupName: string)

  datatype FormatInfo = FormatInfo(contentFormat: seq<string>, acceptFormat: seq<string>)

  /** `additional_config["feishu"]`; an empty string stands for an absent or null value. */
  datatype FeishuInfo = FeishuInfo(chatId: string, chatType: string, messageId: string)

  /**
   * `additional_config.get("feishu", {})`: the key is absent, its value is
   * not a dict (null, say: looking a field up in it raises), or a dict.
   */
  datatype FeishuEcho = EchoAbsent | EchoNotDict | Echo(info: FeishuInfo)

  datatype AdditionalConfig = AdditionalConfig(feishu: FeishuEcho, botMentioned: bool, botUserId: Option<string>)

  /** `BaseMessageInfo`; `time` is in seconds. */
  datatype MessageInfo = MessageInfo(
    platform: string,
    messageId: string,
    time: real,
    userInfo: Option<UserInfo>,
    groupInfo: Option<GroupInfo>,
    formatInfo: FormatInfo,
    additionalConfig: AdditionalConfig)

  /** `MessageBase`: the only structure that crosses the bus. */
  datatype MessageBase = MessageBase(messageInfo: MessageInfo, messageSegment: Seg, rawMessage: string)
}

=== FILE: message_converter.dfy ===
/**
 * Inbound normalisation: a raw Feishu message event becomes a MaiBot
 * `MessageBase` (`process_feishu_message`). The event is given as a typed
 * record of the fields the converter reads; JSON decoding of the content,
 * the image download and the clock are inputs.
 */
module MessageConverter {
  import opened Wrappers
  import opened PyStr
  import opened MaimMessage

  const DefaultNickname := "飞书用户"
  const GroupName := "飞书群组"
  const ImageLabel := "[图片]"
  const ImageDownloadFailedLabel := "[图片下载失败]"
  const ContentFormats := ["text", "image"]
  const AcceptFormats := ["text", "image", "json"]

  /**
   * The `sender` dict: `sender_type` ("" when absent), `sender_id.open_id`,
   * `sender_id.user_id`, `name` and `sender_name.default_name` (None when the
   * key is absent).
   */
  datatype Sender = Sender(
    senderType: string,
    openId: Option<string>,
    userId: Option<string>,
    name: Option<string>,
    defaultName: Option<string>)

  /** A mention's `id` object, whose `open_id` attribute may be None. */
  datatype MentionId = MentionId(openId: Option<string>)

  /** A mention: `key` (e.g. "@_user_1"), `id`, `name` and `tenant_key`, "" when absent. */
  datatype Mention = Mention(key: string, id: Option<MentionId>, name: string, tenantKey: string)

  /**
   * `json.loads(content)`: not JSON at all, a JSON object (its `text` and
   * `image_key` fields), or some other JSON value.
   */
  datatype Content =
    | NotJson
    | JsonObject(text: Option<string>, imageKey: Option<string>)
    | JsonNonObject

  /**
   * The `message` dict. String fields hold "" when absent; `createTime` is
   * `int(create_time)`, None when that raises; `content` is the decoding of
   * `contentRaw`.
   */
  datatype FeishuMessage = FeishuMessage(
    messageId: string,
    createTime: Option<int>,
    chatId: string,
    chatType: string,
    messageType: string,
    contentRaw: string,
    content: Content,
    mentions: seq<Mention>)

  datatype FeishuEvent = FeishuEvent(sender: Sender, message: FeishuMessage)

  /** Python truthiness of an optional string. */
  predicate Truthy(o: Option<string>) {
    o.Some? && o.value != ""
  }

  function SenderUserId(s: Sender): string {
    if Truthy(s.openId) then s.openId.value else s.userId.GetOr("")
  }

  function SenderNickname(s: Sender): string {
    if Truthy(s.name) then s.name.value else s.defaultName.GetOr(DefaultNickname)
  }

  /** The segments and text that the content yields before mentions are rewritten. */
  datatype ParsedContent = ParsedContent(segs: seq<Seg>, text: string)

  /**
   * Step 5: content by message type. `download(image_key, message_id)` is the
   * image download, answering "" on failure or the base64 of the image.
   */
  function ParseContent(m: FeishuMessage, download: (string, string) -> string): (p: ParsedContent)
    ensures |p.segs| <= 1
    ensures p.segs != [] <==>
              && m.messageType == "image" && m.content.JsonObject?
              && Truthy(m.content.imageKey) && m.messageId != ""
              && download(m.content.imageKey.value, m.messageId) != ""
    ensures p.segs != [] ==>
              p == ParsedContent([Seg("image", Str(download(m.content.imageKey.value, m.messageId)))], ImageLabel)
    ensures m.content.NotJson? ==> p == ParsedContent([], m.contentRaw)
    ensures m.content.JsonObject? && m.messageType == "text" ==> p == ParsedContent([], m.content.text.GetOr(""))
    ensures m.content.JsonNonObject? && (m.messageType == "text" || m.messageType == "image") ==>
              p == ParsedContent([], m.contentRaw)
    ensures !m.content.NotJson? && m.messageType != "text" && m.messageType != "image" ==>
              p == ParsedContent([], "[" + m.messageType + "]")
    ensures m.messageType == "image" && m.content.JsonObject? && p.segs == [] ==>
              p.text == (if Truthy(m.content.imageKey) && m.messageId != "" then ImageDownloadFailedLabel else ImageLabel)
  {
    match m.content
    case NotJson => ParsedContent([], m.contentRaw)
    case JsonNonObject =>
      if m.messageType == "text" || m.messageType == "image" then ParsedContent([], m.contentRaw)
      else ParsedContent([], "[" + m.messageType + "]")
    case JsonObject(text, imageKey) =>
      if m.messageType == "text" then ParsedContent([], text.GetOr(""))
      else if m.messageType == "image" then
        var key := imageKey.GetOr("");
        if key != "" && m.messageId != "" then
          var image := download(key, m.messageId);
          if image != "" then ParsedContent([Seg("image", Str(image))], ImageLabel)
          else ParsedContent([], ImageDownloadFailedLabel)
        else ParsedContent([], ImageLabel)
      else ParsedContent([], "[" + m.messageType + "]")
  }

  /** The mention marks the bot: it has an id object and a non-empty tenant key. */
  predicate IsBotMention(m: Mention) {
    m.id.Some? && m.tenantKey != ""
  }

  /** The mention's key is rewritten: non-empty key and a truthy open id. */
  predicate Rewrites(m: Mention) {
    m.key != "" && m.id.Some? && Truthy(m.id.value.openId)
  }

  function Replacement(m: Mention): string
    requires Rewrites(m)
  {
    "@<" + m.name + ":" + m.id.value.openId.value + ">"
  }

  function RewriteOne(text: string, m: Mention): string {
    if Rewrites(m) then ReplaceAll(text, m.key, Replacement(m)) else text
  }

  /** The text after the mentions are applied one after another, in list order. */
  function RewriteAll(text: string, ms: seq<Mention>): string
    decreases |ms|
  {
    if ms == [] then text else RewriteOne(RewriteAll(text, ms[..|ms| - 1]), ms[|ms| - 1])
  }

  /** The position of the last bot mention, -1 when there is none. */
  function LastBotMentionIndex(ms: seq<Mention>): (r: int)
    ensures -1 <= r < |ms|
    ensures r >= 0 ==> IsBotMention(ms[r])
    ensures forall l :: r < l < |ms| ==> !IsBotMention(ms[l])
    decreases |ms|
  {
    if ms == [] then -1
    else if IsBotMention(ms[|ms| - 1]) then |ms| - 1
    else LastBotMentionIndex(ms[..|ms| - 1])
  }

  /** `bot_user_id`: the open id of the last bot mention, None when there is none. */
  function LastBotMentionId(ms: seq<Mention>): Option<string> {
    var k := LastBotMentionIndex(ms);
    if k < 0 then None else ms[k].id.value.openId
  }

  /** Mentions that rewrite nothing leave the text as it is. */
  lemma {:induction false} RewriteAllNoOp(text: string, ms: seq<Mention>)
    requires forall j :: 0 <= j < |ms| ==> !Rewrites(ms[j])
    ensures RewriteAll(text, ms) == text
    decreases |ms|
  {
    if ms != [] {
      RewriteAllNoOp(text, ms[..|ms| - 1]);
    }
  }

  /** Rewriting a list of mentions is rewriting its prefix, then its suffix. */
  lemma {:induction false} RewriteAllAppend(text: string, a: seq<Mention>, b: seq<Mention>)
    ensures RewriteAll(text, a + b) == RewriteAll(RewriteAll(text, a), b)
    decreases |b|
  {
    if b != [] {
      assert (a + b)[..|a + b| - 1] == a + b[..|b| - 1];
      RewriteAllAppend(text, a, b[..|b| - 1]);
    } else {
      assert a + b == a;
    }
  }

  /** Text in which no rewriting mention's key occurs is left as it is. */
  lemma {:induction false} RewriteAllNoKeys(text: string, ms: seq<Mention>)
    requires forall j :: 0 <= j < |ms| && Rewrites(ms[j]) ==> !Contains(text, ms[j].key)
    ensures RewriteAll(text, ms) == text
    decreases |ms|
  {
    if ms != [] {
      var init := ms[..|ms| - 1];
      assert forall j :: 0 <= j < |init| ==> init[j] == ms[j];
      RewriteAllNoKeys(text, init);
      var last := ms[|ms| - 1];
      if Rewrites(last) {
        ReplaceAllAbsent(text, last.key, Replacement(last));
      }
    }
  }

  /**
   * Rewriting is idempotent on rewritten text in which no rewriting key
   * occurs any more (no name or open id contains a key).
   */
  lemma RewriteAllIdempotent(text: string, ms: seq<Mention>)
    requires forall j :: 0 <= j < |ms| && Rewrites(ms[j]) ==> !Contains(RewriteAll(text, ms), ms[j].key)
    ensures RewriteAll(RewriteAll(text, ms), ms) == RewriteAll(text, ms)
  {
    RewriteAllNoKeys(RewriteAll(text, ms), ms);
  }

  /** The second pass over "@<@a:u>" with key "@a", one character at a time. */
  lemma ReplaceInRewrittenName(rep: string)
    ensures ReplaceAll("@<@a:u>", "@a", rep) == "@<" + rep + ":u>"
  {
    var k := "@a";
    assert ReplaceAll(">", k, rep) == ">";
    assert "u>"[..2] != k && "u>"[1..] == ">";
    assert ReplaceAll("u>", k, rep) == "u>";
    assert ":u>"[..2] != k && ":u>"[1..] == "u>";
    assert ReplaceAll(":u>", k, rep) == ":u>";
    assert "@a:u>"[..2] == k && "@a:u>"[2..] == ":u>";
    assert ReplaceAll("@a:u>", k, rep) == rep + ":u>";
    assert "<@a:u>"[..2] != k && "<@a:u>"[1..] == "@a:u>";
    assert ReplaceAll("<@a:u>", k, rep) == "<" + rep + ":u>";
    assert "@<@a:u>"[..2][1] != k[1];
    assert "@<@a:u>"[..2] != k && "@<@a:u>"[1..] == "<@a:u>";
  }

  /**
   * Without that condition rewriting is not idempotent: a mention named like
   * its own key turns "@a" into "@<@a:u>", and a second pass rewrites the
   * key inside the name again.
   */
  lemma RewriteTwiceRewritesAgain()
    ensures var m := Mention("@a", Some(MentionId(Some("u"))), "@a", "");
            && RewriteAll("@a", [m]) == "@<@a:u>"
            && RewriteAll(RewriteAll("@a", [m]), [m]) == "@<@<@a:u>:u>"
  {
    var m := Mention("@a", Some(MentionId(Some("u"))), "@a", "");
    var rep := "@<@a:u>";
    assert Replacement(m) == rep;
    assert [m][..0] == [];
    assert "@a"[..2] == "@a" && "@a"[2..] == [];
    assert RewriteAll("@a", [m]) == rep;
    ReplaceInRewrittenName(rep);
  }

  /**
   * The `for mention in mentions` loop: rewrite each mention's key to
   * `@<name:open_id>`, and record whether, and which, bot was mentioned.
   */
  method RewriteMentions(text: string, mentions: seq<Mention>)
    returns (rewritten: string, botMentioned: bool, botUserId: Option<string>)
    ensures rewritten == RewriteAll(text, mentions)
    ensures botMentioned <==> exists j :: 0 <= j < |mentions| && IsBotMention(mentions[j])
    ensures botUserId == LastBotMentionId(mentions)
  {
    rewritten, botMentioned, botUserId := text, false, None;
    for i := 0 to |mentions|
      invariant rewritten == RewriteAll(text, mentions[..i])
      invariant botMentioned <==> exists j :: 0 <= j < i && IsBotMention(mentions[j])
      invariant botUserId == LastBotMentionId(mentions[..i])
    {
      var mention := mentions[i];
      assert mentions[..i + 1][..i] == mentions[..i];
      var mentionId: Option<string> := Some("");
      if mention.id.Some? {
        mentionId := mention.id.value.openId;
        if mention.tenantKey != "" {
          botMentioned := true;
          botUserId := mentionId;
        }
      }
      if mention.key != "" && Truthy(mentionId) {
        rewritten := ReplaceAll(rewritten, mention.key, "@<" + mention.name + ":" + mentionId.value + ">");
      }
    }
    assert mentions[..|mentions|] == mentions;
  }

  /**
   * `process_feishu_message`: None for an event sent by an app (nothing is
   * forwarded); otherwise the `MessageBase` that is handed to the bus.
   */
  method ProcessFeishuMessage(event: FeishuEvent, platform: string, now: real, download: (string, string) -> string)
    returns (r: Option<MessageBase>)
    ensures r.None? <==> event.sender.senderType == "app"
    ensures r.Some? ==>
              var s := event.sender;
              var m := event.message;
              var info := r.value.messageInfo;
              && info.userInfo.Some?
              && var user := info.userInfo.value;
              && user.platform == platform
              && (Truthy(s.openId) ==> user.userId == s.openId.value)
              && (!Truthy(s.openId) ==> user.userId == s.userId.GetOr(""))
              && (Truthy(s.name) ==> user.userNickname == s.name.value)
              && (!Truthy(s.name) ==> user.userNickname == s.defaultName.GetOr(DefaultNickname))
              && user.userCardname == user.userNickname
              && (info.groupInfo.Some? <==> m.chatType == "group")
              && (info.groupInfo.Some? ==> info.groupInfo.value == GroupInfo(platform, m.chatId, GroupName))
              && (m.createTime.Some? ==> info.time == m.createTime.value as real / 1000.0)
              && (m.createTime.None? ==> info.time == now)
              && info.platform == platform
              && info.messageId == m.messageId
              && info.additionalConfig.feishu == Echo(FeishuInfo(m.chatId, m.chatType, m.messageId))
    ensures r.Some? ==>
              var m := event.message;
              var p := ParseContent(m, download);
              var rewrite := m.mentions != [] && p.text != "";
              var config := r.value.messageInfo.additionalConfig;
              && r.value.rawMessage == (if rewrite then RewriteAll(p.text, m.mentions) else p.text)
              && (config.botMentioned <==>
                    rewrite && exists j :: 0 <= j < |m.mentions| && IsBotMention(m.mentions[j]))
              && config.botUserId == (if rewrite then LastBotMentionId(m.mentions) else None)
              && r.value.messageSegment.segType == "seglist"
              && r.value.messageSegment.data ==
                   Segs(if p.segs == [] then [Seg("text", Str(r.value.rawMessage))] else p.segs)
              && |r.value.messageSegment.data.items| == 1
  {
    var sender := event.sender;
    var message := event.message;
    if sender.senderType == "app" {
      return None;
    }
    var userInfo := UserInfo(platform, SenderUserId(sender), SenderNickname(sender), SenderNickname(sender));
    var groupInfo: Option<GroupInfo> := None;
    if message.chatType == "group" {
      groupInfo := Some(GroupInfo(platform, message.chatId, GroupName));
    }
    var msgTime := if message.createTime.Some? then message.createTime.value as real / 1000.0 else now;
    var parsed := ParseContent(message, download);
    var segList := parsed.segs;
    var textContent := parsed.text;
    var botMentioned := false;
    var botUserId: Option<string> := None;
    if message.mentions != [] && textContent != "" {
      textContent, botMentioned, botUserId := RewriteMentions(textContent, message.mentions);
    }
    if segList == [] {
      segList := segList + [Seg("text", Str(textContent))];
    }
    var info := MessageInfo(
      platform, message.messageId, msgTime, Some(userInfo), groupInfo,
      FormatInfo(ContentFormats, AcceptFormats),
      AdditionalConfig(Echo(FeishuInfo(message.chatId, message.chatType, message.messageId)), botMentioned, botUserId));
    r := Some(MessageBase(info, Seg("seglist", Segs(segList)), textContent));
  }
}

=== FILE: pystr.dfy ===
/**
 * The few Python `str` operations the adapter relies on, with their Python
 * meaning: `isspace`/`strip`, `startswith`, the `in` operator and `replace`.
 */
module PyStr {

  /** A character that Python's `str.strip()` removes (`str.isspace()`). */
  predicate IsSpace(c: char) {
    || c == ' '
    || ('\t' <= c <= '\r')                    // tab, newline, vertical tab, form feed, carriage return
    || ('\U{1C}' <= c <= '\U{1F}')            // file, group, record and unit separators
    || c == '\U{85}' || c == '\U{A0}' || c == '\U{1680}'
    || ('\U{2000}' <= c <= '\U{200A}')
    || c == '\U{2028}' || c == '\U{2029}' || c == '\U{202F}' || c == '\U{205F}' || c == '\U{3000}'
  }

  /** `s.strip() == ""`: the string is empty or all whitespace. */
  predicate IsBlank(s: string) {
    forall i :: 0 <= i < |s| ==> IsSpace(s[i])
  }

  /** `s.startswith(prefix)`. */
  predicate StartsWith(s: string, prefix: string) {
    |prefix| <= |s| && s[..|prefix|] == prefix
  }

  /** `sub in s`. */
  predicate Contains(s: string, sub: string)
    decreases |s|
  {
    if |s| < |sub| then false
    else if s[..|sub|] == sub then true
    else |s| > 0 && Contains(s[1..], sub)
  }

  /**
   * `s.replace(key, rep)`: scan from the left and replace every
   * non-overlapping occurrence of `key`. Every caller in the adapter passes a
   * non-empty key (a mention key it has just tested, or a literal marker).
   */
  function ReplaceAll(s: string, key: string, rep: string): string
    requires key != []
    decreases |s|
  {
    if |s| < |key| then s
    else if s[..|key|] == key then rep + ReplaceAll(s[|key|..], key, rep)
    else [s[0]] + ReplaceAll(s[1..], key, rep)
  }

  /** A string without any occurrence of the key is left as it is. */
  lemma {:induction false} ReplaceAllAbsent(s: string, key: string, rep: string)
    requires key != [] && !Contains(s, key)
    ensures ReplaceAll(s, key, rep) == s
    decreases |s|
  {
    if |s| >= |key| {
      ReplaceAllAbsent(s[1..], key, rep);
    }
  }

  /**
   * The first occurrence of the key (none starts inside `a` or overlaps its
   * end) becomes `rep`, text before it is copied, and replacement continues
   * after it. With ReplaceAllAbsent this determines ReplaceAll completely:
   * all occurrences, left to right, none overlapping.
   */
  lemma {:induction false} ReplaceAllFirst(a: string, key: string, b: string, rep: string)
    requires key != [] && !Contains(a + key[..|key| - 1], key)
    ensures ReplaceAll(a + key + b, key, rep) == a + rep + ReplaceAll(b, key, rep)
    decreases |a|
  {
    var s := a + key + b;
    if a == [] {
      assert s == key + b;
      assert s[..|key|] == key && s[|key|..] == b;
    } else {
      var x := a + key[..|key| - 1];
      assert s[..|key|] == x[..|key|];
      assert x[1..] == a[1..] + key[..|key| - 1];
      assert s[1..] == a[1..] + key + b;
      ReplaceAllFirst(a[1..], key, b, rep);
      calc {
        ReplaceAll(s, key, rep);
        [s[0]] + ReplaceAll(s[1..], key, rep);
        [a[0]] + (a[1..] + rep + ReplaceAll(b, key, rep));
        { assert a == [a[0]] + a[1..]; }
        a + rep + ReplaceAll(b, key, rep);
      }
    }
  }

  /**
   * Removing a marker the string starts with: when it occurs nowhere after
   * the front, exactly the rest of the string is left.
   */
  lemma StripLeadingMarker(s: string, marker: string)
    requires marker != [] && StartsWith(s, marker) && !Contains(s[|marker|..], marker)
    ensures ReplaceAll(s, marker, "") == s[|marker|..]
  {
    assert s[..|marker|] == marker;
    ReplaceAllAbsent(s[|marker|..], marker, "");
  }
}

=== FILE: wrappers.dfy ===
/** The Option type used wherever the adapter reads a field that may be absent. */
module Wrappers {

  datatype Option<+T> = None | Some(value: T) {

    /** The value, or `default` when absent (Python's `d.get(k, default)`). */
    function GetOr(default: T): T {
      match this
      case Some(v) => v
      case None => default
    }
  }
}
